=== FILE: README.md ===
# Tip calculator: bill arithmetic and selection state

A Dafny model of the logic inside a small tkinter tip calculator
(`calculator.py` and the `TipCalculatorApp` class of `gui.py`).

- **Calculator** (`calculator.dfy`): `calculate_tip_amount` and
  `calculate_total_per_person` over exact `real` arithmetic, with the
  people-count guard as the error branch of a `Result`.
- **GuiState** (`gui_state.dfy`): the app's selections with the widgets
  removed — bill text, preset tip, custom tip text, the tri-state split
  choice, preset head count, custom people text and the result text — and
  every handler as a pure transition: `set_tip`, `set_split_choice`,
  `set_people`, `clear_tip_selection`, `clear_people_selection`, the two
  focus handlers and the later (effective) definitions of
  `on_custom_tip_change` and `on_custom_people_change`. A `StringVar` write
  and the trace it fires form one transition; the suppress flags, which
  are only ever true during the write inside `set_tip`/`set_people`, become
  a `suppressed` argument of that write.
- **GuiCalculate** (`gui_calculate.dfy`): `get_tip_percentage`,
  `get_number_of_people` and `calculate` — custom text (checked for
  emptiness only, so whitespace counts as provided) beats a preset; checks
  run bill, tip, split choice, head count, arithmetic; output is
  `Total per person: £…`, `Total: £…` or `Error: …`. Python's `float()`,
  `int()` and the `:.2f` format are supplied as a `Conversions` value of
  function parameters: a parser yields the number or the text of the
  `ValueError` it raises.
- **Session** (`session.dfy`): runs of user events and the invariant every
  state the model reaches keeps. The model assumes that only widgets
  currently shown deliver events, and the people widgets are shown only
  while "Split Bill?" is Yes (gui.py:163-198); see `Session.Enabled` under
  "## Left out".
- **Results** (`results.dfy`): `Option` and `Result` with `:-` support.

Behaviour of the code worth noting: a negative bill is accepted (`float()`
parses it and nothing checks its sign); whitespace-only custom text is
"provided" and goes to the parser; a zero or negative custom tip is
accepted; a zero custom head count is reported with the calculator's own
message "Number of people must be greater than zero."; and a preset pressed
after custom text clears that text, so in the running app the last tip
action wins (only the resolver itself prefers custom text).

## Model

| member | source | states |
|---|---|---|
| Calculator.TipAmount | calculator.py:1-3 | the tip times 100 is the bill times the percentage |
| Calculator.TipIsPercentageOfBill | calculator.py:1-3 | the tip is bill × percentage / 100 |
| Calculator.TotalPerPerson | calculator.py:5-12 | fails exactly when the head count is ≤ 0, always with "Number of people must be greater than zero."; otherwise share × count equals bill plus tip, so splitting loses nothing |
| Calculator.OnePersonPaysTipInclusiveTotal | calculator.py:10-12 | with one person the result is bill × (1 + tip/100), the not-split total |
| Calculator.NoTipSplitsBillEvenly | calculator.py:10-12 | with a 0% tip each of n people pays bill / n |
| Calculator.ShareIsTotalOverPeople | calculator.py:10-12 | a share among n people is the one-person total divided by n |
| GuiState.OnCustomPeopleChange | gui.py:243-253 | unless suppressed the preset head count is forgotten; nothing else changes; suppressed it is a no-op |
| GuiState.WriteCustomPeople | gui.py:30-33 | writing custom people text sets it and, unless suppressed, clears the preset head count; tip, split, bill and result are untouched |
| GuiState.OnCustomTipChange | gui.py:226-238 | unless suppressed the preset tip is cleared; when split is Yes the preset head count and custom people text are cleared too; otherwise the people fields are unchanged |
| GuiState.WriteCustomTip | gui.py:30-32 | writing custom tip text sets it and, unless suppressed, clears the preset tip; a live write while split is Yes also clears the preset head count and the custom people text, otherwise the people fields are unchanged; split, bill and result are untouched |
| GuiState.SetTip | gui.py:146-155 | afterwards the preset tip is the one pressed and the custom tip text is empty; people, split, bill and result are unchanged |
| GuiState.SetSplitChoice | gui.py:157-160 | the split choice becomes the answer given and both people fields are reset; the tip fields are unchanged |
| GuiState.SetPeople | gui.py:200-209 | afterwards the preset head count is the one pressed and the custom people text is empty; tip, split, bill and result are unchanged |
| GuiState.ClearTipSelection | gui.py:211-214 | forgets the preset tip and nothing else |
| GuiState.ClearPeopleSelection | gui.py:216-219 | forgets the preset head count and nothing else |
| GuiState.OnCustomTipFocus | gui.py:221-224 | clears the preset tip, clears the preset head count only when split is Yes, and changes no text |
| GuiState.OnCustomPeopleFocus | gui.py:240-241 | clears the preset head count and nothing else |
| GuiState.UnsuppressedClearWouldUndoSetTip | gui.py:150-155 | set_tip keeps its choice, while the same clearing write with the trace live would erase it |
| GuiState.UnsuppressedClearWouldUndoSetPeople | gui.py:204-209 | set_people keeps its choice, while the same clearing write with the trace live would erase it |
| GuiCalculate.GetTipPercentage | gui.py:274-280 | non-empty custom text is parsed (its failure is the error); else the preset; else "Please select or enter a tip percentage." |
| GuiCalculate.GetNumberOfPeople | gui.py:282-288 | non-empty custom text is parsed as an int; else the preset; else "Please select or enter number of people." |
| GuiCalculate.CustomTipOverridesPreset | gui.py:274-278 | with custom tip text present the resolved tip does not depend on the preset |
| GuiCalculate.CustomPeopleOverridesPreset | gui.py:282-286 | with custom people text present the resolved count does not depend on the preset |
| GuiCalculate.Compute | gui.py:255-272 | the bill error comes first, then the tip error, then "Please choose whether to split the bill."; not split gives the total bill × (1 + tip/100); split gives the head-count error, the non-positive-count error, or a share that times the count equals bill plus tip |
| GuiCalculate.Render | gui.py:266-272 | the text starts with "Error: ", "Total: £" or "Total per person: £" exactly for an error, a whole total or a share, followed by the message or the formatted amount |
| GuiCalculate.Calculate | gui.py:255-272 | the label shows "Error: " exactly on failure, "Total: £" exactly on not-split success, "Total per person: £" exactly on split success; the rest is the error message, or the `:.2f` formatting of the total or of the share |
| GuiCalculate.UndecidedSplitNeverSucceeds | gui.py:256-261 | with the split question unanswered every calculation is an error, whatever else is entered |
| GuiCalculate.NotSplitIgnoresPeople | gui.py:263-269 | when not split the people fields have no effect on the outcome |
| GuiCalculate.PresetTipNotSplitExample | gui.py:267-269 | bill 100.00, 15% preset, not split shows "Total: £" and the formatting of 115 |
| GuiCalculate.CustomTipPresetPeopleExample | gui.py:263-266 | bill 90.00, custom 10%, split among a preset 3 shows "Total per person: £" and the formatting of 33 |
| GuiCalculate.ZeroCustomPeopleExample | gui.py:263-272 | custom people text "0" shows "Error: Number of people must be greater than zero.", whatever preset is held |
| GuiCalculate.NegativeBillAccepted | gui.py:257 | bill -5.00 with 15%, not split, yields the total -5.75 rather than an error |
| GuiCalculate.MissingTipExample | gui.py:277-280 | with no tip entered or selected the label shows "Error: Please select or enter a tip percentage." |
| Session.Step | gui.py:32-189 | each event runs the handler its widget is bound to (the Calculate, tip, split and people buttons, the two `<FocusIn>` bindings, the two text traces): a tip button sets that preset and empties the custom tip; typing a tip sets the text and clears the preset; tip focus clears the preset and keeps the text; Yes/No sets the answer and empties both people fields; a people button sets that count and empties the custom people text; typing a count sets the text and clears the preset; people focus clears the preset and keeps the text; only tip events change the tip fields, only Yes/No changes the split answer, only the bill entry changes the bill, typing a tip while split is Yes also empties both people fields, and otherwise leaves them alone; tip focus while split is Yes also clears the preset count; only Calculate changes the label, which becomes the calculate text; `Session.Enabled` admits people events only while the people widgets are shown (gui.py:163-198) |
| Session.InitialSatisfiesInv | gui.py:15-22 | the initial state has no selections, so the invariant holds |
| Session.StepPreservesInv | gui.py:146-253 | every handler keeps: preset and custom text never held at once, presets are button values, no head count unless split |
| Session.RunPreservesInv | gui.py:146-253 | the invariant holds after any sequence of events |
| Session.ReachablePresetsResolve | gui.py:274-288 | in any reachable state a preset tip resolves to itself and a preset head count is positive and only held while splitting |
| Session.ReachableNotSplitHasNoPeople | gui.py:157-168 | in any reachable state that is not split both people fields are empty, given that hidden people widgets deliver no events |
| Session.TipNeutralRunKeepsTip | gui.py:146-253 | events other than the tip button, tip focus and tip typing leave the tip fields and the resolved tip unchanged |
| Session.SplitStaysDecided | gui.py:157-158 | once Yes or No is pressed the split choice never returns to undecided |
| Session.LastTipActionWins | gui.py:146-155 | typing then pressing a preset resolves to the preset; pressing a preset then typing resolves to the typed text |
| Session.FocusAfterPresetLosesTip | gui.py:221-224 | pressing a preset resolves to it, but focusing the custom entry afterwards leaves no tip at all |

## Left out

- Widget work: window layout and `centre_window`, button creation and destruction, `pack`/`pack_forget`, highlight colours and `winfo_exists` (gui.py:37-80, 95-131, 139-144, 170-198). Only its effect on which events can occur is kept, as `Session.Enabled`.
- `main.py`: the Tk event loop and window-close protocol, pure I/O.
- The first definitions of `on_custom_tip_change` and `on_custom_people_change` (gui.py:82-93, 133-137): Python replaces them with the later ones.
- Session.Enabled: assumes that a hidden widget delivers no events. `hide_people_options` only unpacks the people widgets (gui.py:195-198) and does not move keyboard focus, so Tk may still send keystrokes to a custom people entry that had focus before "No" was pressed, setting `custom_people` while the bill is not split. The invariant's clause that no people text survives unless splitting, and `Session.ReachableNotSplitHasNoPeople`, rest on this assumption. `calculate` is unaffected either way, since `GuiCalculate.NotSplitIgnoresPeople` shows the people fields are ignored when not split.
- Tk trace re-entrancy: each handler, including the traces its writes fire, is one atomic transition.
- The grammar of Python's `float()` and `int()` and the text of their `ValueError` messages: they are function parameters.
- Calculator.TotalPerPerson: exact real arithmetic; the source computes in IEEE binary floating point, whose rounding is not modelled. Nor is its OverflowError: a head count too large for a float (custom text such as "1" followed by 400 zeros) makes the division at calculator.py:12 raise OverflowError, which `calculate` does not catch (gui.py:271 catches only ValueError), so the app leaves the label unchanged, while the model shows a tiny share.
- GuiCalculate.Conversions: `toFloat` yields a `real`, so the infinities and NaN that Python's `float()` accepts for "inf" and "nan" are not represented, nor is arithmetic on them.
- GuiCalculate.Render: the `:.2f` rounding is a function parameter, so the digits shown are not modelled.

=== FILE: calculator.dfy ===
/** The bill arithmetic of calculator.py, over exact reals instead of floats. */
module Calculator {
  import opened Results

  /** The message of the ValueError raised for a non-positive head count. */
  const NonPositivePeople: string := "Number of people must be greater than zero."

  /** calculate_tip_amount: the tip owed on `bill` at `tipPercentage` percent. */
  function TipAmount(bill: real, tipPercentage: real): (tip: real)
    ensures tip * 100.0 == bill * tipPercentage
  {
    bill * (tipPercentage / 100.0)
  }

  /** calculate_total_per_person: the tip-inclusive bill shared among `people`.
      The guard comes first, so a non-positive count is an error whatever the
      bill and tip are; otherwise the `people` shares add back up to the
      tip-inclusive total exactly. */
  function TotalPerPerson(bill: real, tipPercentage: real, people: int): (r: Result<real, string>)
    ensures r.Err? <==> people <= 0
    ensures r.Err? ==> r.error == NonPositivePeople
    ensures r.Ok? ==> r.value * (people as real) == bill + TipAmount(bill, tipPercentage)
  {
    if people <= 0 then
      Err(NonPositivePeople)
    else
      var tip := TipAmount(bill, tipPercentage);
      var total := bill + tip;
      Ok(total / (people as real))
  }

  /** The tip is the bill scaled by the percentage over a hundred. */
  lemma TipIsPercentageOfBill(bill: real, tipPercentage: real)
    ensures TipAmount(bill, tipPercentage) == bill * tipPercentage / 100.0
  {
  }

  /** With one person the "share" is the whole tip-inclusive bill. */
  lemma OnePersonPaysTipInclusiveTotal(bill: real, tipPercentage: real)
    ensures TotalPerPerson(bill, tipPercentage, 1) == Ok(bill * (1.0 + tipPercentage / 100.0))
  {
  }

  /** With no tip each person pays an equal part of the bill alone. */
  lemma NoTipSplitsBillEvenly(bill: real, people: int)
    requires people > 0
    ensures TotalPerPerson(bill, 0.0, people) == Ok(bill / (people as real))
  {
  }

  /** A share among `people` is the one-person total divided by `people`. */
  lemma ShareIsTotalOverPeople(bill: real, tipPercentage: real, people: int)
    requires people > 0
    ensures TotalPerPerson(bill, tipPercentage, people).Ok?
    ensures TotalPerPerson(bill, tipPercentage, people).value
         == TotalPerPerson(bill, tipPercentage, 1).value / (people as real)
  {
  }
}

=== FILE: gui_calculate.dfy ===
/** How gui.py turns the selection state into the result text:
    get_tip_percentage, get_number_of_people and calculate.

    Python's float() and int() and the `:.2f` format are not modelled: they
    are supplied as a `Conversions` value. A parser returns the parsed number
    or the message of the ValueError it raises. */
module GuiCalculate {
  import opened Results
  import opened Calculator
  import opened GuiState

  /** The Python built-ins the calculation relies on. */
  datatype Conversions = Conversions(
    toFloat: string -> Result<real, string>,   // float(text)
    toInt: string -> Result<int, string>,      // int(text)
    fixed2: real -> string                     // f"{x:.2f}"
  )

  const TipMissing: string := "Please select or enter a tip percentage."
  const SplitMissing: string := "Please choose whether to split the bill."
  const PeopleMissing: string := "Please select or enter number of people."

  /** What a successful calculation displays: a per-person share when the
      bill is split, the tip-inclusive total when it is not. */
  datatype Amount = PerPerson(share: real) | Whole(total: real)

  /** get_tip_percentage: non-empty custom text (a plain truthiness test, so
      whitespace counts) is parsed and beats any preset; otherwise the preset
      is used; otherwise the tip is missing. */
  function GetTipPercentage(s: Selections, conv: Conversions): (r: Result<real, string>)
    ensures s.customTip != "" ==> r == conv.toFloat(s.customTip)
    ensures s.customTip == "" && s.selectedTip.Some? ==> r == Ok(s.selectedTip.value as real)
    ensures s.customTip == "" && s.selectedTip.None? ==> r == Err(TipMissing)
  {
    if s.customTip != "" then
      conv.toFloat(s.customTip)
    else if s.selectedTip.Some? then
      Ok(s.selectedTip.value as real)
    else
      Err(TipMissing)
  }

  /** get_number_of_people: the same precedence, parsing with int(). */
  function GetNumberOfPeople(s: Selections, conv: Conversions): (r: Result<int, string>)
    ensures s.customPeople != "" ==> r == conv.toInt(s.customPeople)
    ensures s.customPeople == "" && s.selectedPeople.Some? ==> r == Ok(s.selectedPeople.value)
    ensures s.customPeople == "" && s.selectedPeople.None? ==> r == Err(PeopleMissing)
  {
    if s.customPeople != "" then
      conv.toInt(s.customPeople)
    else if s.selectedPeople.Some? then
      Ok(s.selectedPeople.value)
    else
      Err(PeopleMissing)
  }

  /** The try-block of calculate: bill, then tip, then the split choice,
      then (only when splitting) the head count, then the arithmetic. The
      first failure is the outcome; nothing later is consulted. */
  function Compute(s: Selections, conv: Conversions): (r: Result<Amount, string>)
    // the bill is parsed first
    ensures conv.toFloat(s.bill).Err? ==> r == Err(conv.toFloat(s.bill).error)
    // then the tip is resolved
    ensures conv.toFloat(s.bill).Ok? && GetTipPercentage(s, conv).Err?
         ==> r == Err(GetTipPercentage(s, conv).error)
    // then the split choice must have been made
    ensures conv.toFloat(s.bill).Ok? && GetTipPercentage(s, conv).Ok? && s.split == Undecided
         ==> r == Err(SplitMissing)
    // not splitting: one tip-inclusive total, whatever the people fields hold
    ensures conv.toFloat(s.bill).Ok? && GetTipPercentage(s, conv).Ok? && s.split == NotSplit
         ==> var bill := conv.toFloat(s.bill).value;
             var tip := GetTipPercentage(s, conv).value;
             r.Ok? && r.value == Whole(bill * (1.0 + tip / 100.0))
    // splitting: the head count is resolved, then must be positive
    ensures conv.toFloat(s.bill).Ok? && GetTipPercentage(s, conv).Ok? && s.split == Split
         ==> match GetNumberOfPeople(s, conv)
             case Err(m) => r == Err(m)
             case Ok(n) =>
               if n <= 0 then r == Err(NonPositivePeople)
               else
                 var bill := conv.toFloat(s.bill).value;
                 var tip := GetTipPercentage(s, conv).value;
                 r.Ok? && r.value.PerPerson? && r.value.share * (n as real) == bill + TipAmount(bill, tip)
  {
    var bill :- conv.toFloat(s.bill);
    var tip :- GetTipPercentage(s, conv);
    if s.split == Undecided then
      Err(SplitMissing)
    else if s.split == Split then
      var people :- GetNumberOfPeople(s, conv);
      var share :- TotalPerPerson(bill, tip, people);
      Ok(PerPerson(share))
    else
      // calculate_total_per_person with a head count of 1 cannot fail
      OnePersonPaysTipInclusiveTotal(bill, tip);
      Ok(Whole(TotalPerPerson(bill, tip, 1).value))
  }

  /** The text calculate writes to the result label. */
  function Render(r: Result<Amount, string>, conv: Conversions): (text: string)
    ensures "Error: " <= text <==> r.Err?
    ensures "Total: £" <= text <==> r.Ok? && r.value.Whole?
    ensures "Total per person: £" <= text <==> r.Ok? && r.value.PerPerson?
    ensures r.Err? ==> text[|"Error: "|..] == r.error
    ensures r.Ok? && r.value.Whole? ==> text[|"Total: £"|..] == conv.fixed2(r.value.total)
    ensures r.Ok? && r.value.PerPerson? ==> text[|"Total per person: £"|..] == conv.fixed2(r.value.share)
  {
    // The three prefixes already differ at their first or sixth character.
    match r
    case Ok(PerPerson(share)) =>
      var text := "Total per person: £" + conv.fixed2(share);
      assert text[0] == 'T' && text[5] == ' ';
      text
    case Ok(Whole(total)) =>
      var text := "Total: £" + conv.fixed2(total);
      assert text[0] == 'T' && text[5] == ':';
      text
    case Err(message) =>
      var text := "Error: " + message;
      assert text[0] == 'E';
      text
  }

  /** calculate: the new text of the result label. */
  function Calculate(s: Selections, conv: Conversions): (text: string)
    ensures "Error: " <= text <==> Compute(s, conv).Err?
    ensures "Total: £" <= text <==> s.split == NotSplit && Compute(s, conv).Ok?
    ensures "Total per person: £" <= text <==> s.split == Split && Compute(s, conv).Ok?
    ensures Compute(s, conv).Err? ==> text == "Error: " + Compute(s, conv).error
    ensures s.split == NotSplit && Compute(s, conv).Ok?
         ==> text == "Total: £" + conv.fixed2(Compute(s, conv).value.total)
    ensures s.split == Split && Compute(s, conv).Ok?
         ==> text == "Total per person: £" + conv.fixed2(Compute(s, conv).value.share)
  {
    Render(Compute(s, conv), conv)
  }

  /** Non-empty custom tip text wins over any preset, whichever was set last. */
  lemma CustomTipOverridesPreset(s: Selections, conv: Conversions, preset: Option<int>)
    requires s.customTip != ""
    ensures GetTipPercentage(s.(selectedTip := preset), conv) == GetTipPercentage(s, conv)
    ensures GetTipPercentage(s, conv) == conv.toFloat(s.customTip)
  {
  }

  /** Non-empty custom people text wins over any preset head count. */
  lemma CustomPeopleOverridesPreset(s: Selections, conv: Conversions, preset: Option<int>)
    requires s.customPeople != ""
    ensures GetNumberOfPeople(s.(selectedPeople := preset), conv) == GetNumberOfPeople(s, conv)
    ensures GetNumberOfPeople(s, conv) == conv.toInt(s.customPeople)
  {
  }

  /** Before the split question is answered no calculation succeeds,
      whatever the bill, tip and people fields hold. */
  lemma UndecidedSplitNeverSucceeds(s: Selections, conv: Conversions)
    requires s.split == Undecided
    ensures Compute(s, conv).Err?
    ensures "Error: " <= Calculate(s, conv)
  {
  }

  /** When the bill is not split the people fields are never consulted. */
  lemma NotSplitIgnoresPeople(s: Selections, conv: Conversions, selected: Option<int>, custom: string)
    requires s.split == NotSplit
    ensures Compute(s.(selectedPeople := selected, customPeople := custom), conv) == Compute(s, conv)
  {
  }

  /** A bill of 100.00 with the 15% preset, not split, shows a total of 115.00. */
  lemma PresetTipNotSplitExample(s: Selections, conv: Conversions)
    requires s.bill == "100.00" && conv.toFloat("100.00") == Ok(100.0)
    requires s.customTip == "" && s.selectedTip == Some(15) && s.split == NotSplit
    ensures Calculate(s, conv) == "Total: £" + conv.fixed2(115.0)
  {
  }

  /** A bill of 90.00 with a custom 10% tip among a preset three people
      shows a share of 33.00. */
  lemma CustomTipPresetPeopleExample(s: Selections, conv: Conversions)
    requires s.bill == "90.00" && conv.toFloat("90.00") == Ok(90.0)
    requires s.customTip == "10" && conv.toFloat("10") == Ok(10.0)
    requires s.split == Split && s.customPeople == "" && s.selectedPeople == Some(3)
    ensures Calculate(s, conv) == "Total per person: £" + conv.fixed2(33.0)
  {
  }

  /** A custom head count of 0 reaches calculate_total_per_person, whose
      guard message is shown, whatever preset is also held. */
  lemma ZeroCustomPeopleExample(s: Selections, conv: Conversions)
    requires conv.toFloat(s.bill).Ok? && GetTipPercentage(s, conv).Ok?
    requires s.split == Split && s.customPeople == "0" && conv.toInt("0") == Ok(0)
    ensures Calculate(s, conv) == "Error: " + NonPositivePeople
  {
  }

  /** A negative bill is not rejected: float() accepts it and the arithmetic
      goes ahead. */
  lemma NegativeBillAccepted(s: Selections, conv: Conversions)
    requires s.bill == "-5.00" && conv.toFloat("-5.00") == Ok(-5.0)
    requires s.customTip == "" && s.selectedTip == Some(15) && s.split == NotSplit
    ensures Compute(s, conv) == Ok(Whole(-5.75))
  {
  }

  /** With no tip chosen, the tip error is reported even though the bill is
      split among a chosen number of people. */
  lemma MissingTipExample(s: Selections, conv: Conversions)
    requires conv.toFloat(s.bill).Ok?
    requires s.customTip == "" && s.selectedTip == None
    ensures Calculate(s, conv) == "Error: " + TipMissing
  {
  }
}

=== FILE: gui_state.dfy ===
/** The selection state of gui.py's TipCalculatorApp with the widgets taken
    away, and its event handlers as pure transitions on that state.

    A StringVar write and the write trace it fires are one transition here.
    The `_suppress_custom_*_trace` flags are true only for the duration of
    the write inside set_tip and set_people, so they are not stored: each
    write takes a `suppressed` argument instead. */
module GuiState {
  import opened Results

  /** split_bill_choice: None until a split button is pressed. */
  datatype SplitChoice = Undecided | Split | NotSplit

  /** The part of the app's state that the handlers read and write. */
  datatype Selections = Selections(
    bill: string,                  // bill_amount
    selectedTip: Option<int>,      // selected_tip_percentage
    customTip: string,             // custom_amount
    split: SplitChoice,            // split_bill_choice
    selectedPeople: Option<int>,   // selected_people
    customPeople: string,          // custom_people
    result: string                 // result
  )

  /** The state built by __init__. */
  const Initial: Selections :=
    Selections("", None, "", Undecided, None, "", "Total per person: £0.00")

  /** The preset buttons offered by create_tip_buttons and show_people_options. */
  const TipPresets: seq<int> := [10, 15, 20]
  const PeoplePresets: seq<int> := [2, 3, 4]

  /** Both tip fields agree. */
  predicate SameTip(a: Selections, b: Selections) {
    a.selectedTip == b.selectedTip && a.customTip == b.customTip
  }

  /** Both people fields agree. */
  predicate SamePeople(a: Selections, b: Selections) {
    a.selectedPeople == b.selectedPeople && a.customPeople == b.customPeople
  }

  /** The later on_custom_people_change: unless suppressed, a write to the
      custom people text forgets the preset head count. */
  function OnCustomPeopleChange(s: Selections, suppressed: bool): (r: Selections)
    ensures suppressed ==> r == s
    ensures !suppressed ==> r.selectedPeople == None
    ensures r.(selectedPeople := s.selectedPeople) == s
  {
    if suppressed then s else s.(selectedPeople := None)
  }

  /** custom_people.set(text), followed by the trace it fires. */
  function WriteCustomPeople(s: Selections, text: string, suppressed: bool): (r: Selections)
    ensures r.customPeople == text
    ensures r.selectedPeople == (if suppressed then s.selectedPeople else None)
    ensures SameTip(r, s) && r.split == s.split && r.bill == s.bill && r.result == s.result
  {
    OnCustomPeopleChange(s.(customPeople := text), suppressed)
  }

  /** The later on_custom_tip_change: unless suppressed, a write to the custom
      tip text forgets the preset tip, and when the bill is being split it
      also forgets the head count, preset and custom alike. */
  function OnCustomTipChange(s: Selections, suppressed: bool): (r: Selections)
    ensures suppressed ==> r == s
    ensures !suppressed ==> r.selectedTip == None
    ensures !suppressed && s.split == Split ==> r.selectedPeople == None && r.customPeople == ""
    ensures s.split != Split ==> SamePeople(r, s)
    ensures r.customTip == s.customTip && r.split == s.split && r.bill == s.bill && r.result == s.result
  {
    if suppressed then
      s
    else
      var cleared := s.(selectedTip := None);
      if cleared.split == Split then
        WriteCustomPeople(cleared.(selectedPeople := None), "", false)
      else
        cleared
  }

  /** custom_amount.set(text), followed by the trace it fires. */
  function WriteCustomTip(s: Selections, text: string, suppressed: bool): (r: Selections)
    ensures r.customTip == text
    ensures r.selectedTip == (if suppressed then s.selectedTip else None)
    ensures !suppressed && s.split == Split ==> r.selectedPeople == None && r.customPeople == ""
    ensures suppressed || s.split != Split ==> SamePeople(r, s)
    ensures r.split == s.split && r.bill == s.bill && r.result == s.result
  {
    OnCustomTipChange(s.(customTip := text), suppressed)
  }

  /** set_tip: a preset tip replaces any custom text, and the suppressed
      trace leaves the people selection alone. */
  function SetTip(s: Selections, tipPercentage: int): (r: Selections)
    ensures r.selectedTip == Some(tipPercentage) && r.customTip == ""
    ensures SamePeople(r, s) && r.split == s.split && r.bill == s.bill && r.result == s.result
  {
    WriteCustomTip(s.(selectedTip := Some(tipPercentage)), "", true)
  }

  /** set_split_choice: records the answer and forgets any head count;
      the tip is untouched. */
  function SetSplitChoice(s: Selections, splitYes: bool): (r: Selections)
    ensures r.split == (if splitYes then Split else NotSplit)
    ensures r.selectedPeople == None && r.customPeople == ""
    ensures SameTip(r, s) && r.bill == s.bill && r.result == s.result
  {
    var chosen := s.(split := if splitYes then Split else NotSplit, selectedPeople := None);
    WriteCustomPeople(chosen, "", false)
  }

  /** set_people: a preset head count replaces any custom text, and the
      suppressed trace keeps the count just chosen. */
  function SetPeople(s: Selections, people: int): (r: Selections)
    ensures r.selectedPeople == Some(people) && r.customPeople == ""
    ensures SameTip(r, s) && r.split == s.split && r.bill == s.bill && r.result == s.result
  {
    WriteCustomPeople(s.(selectedPeople := Some(people)), "", true)
  }

  /** clear_tip_selection: forgets the preset tip and nothing else. */
  function ClearTipSelection(s: Selections): (r: Selections)
    ensures r.selectedTip == None
    ensures r.(selectedTip := s.selectedTip) == s
  {
    s.(selectedTip := None)
  }

  /** clear_people_selection: forgets the preset head count and nothing else. */
  function ClearPeopleSelection(s: Selections): (r: Selections)
    ensures r.selectedPeople == None
    ensures r.(selectedPeople := s.selectedPeople) == s
  {
    s.(selectedPeople := None)
  }

  /** on_custom_tip_focus: forgets the preset tip, and the preset head count
      only when splitting; no text is changed. */
  function OnCustomTipFocus(s: Selections): (r: Selections)
    ensures r.selectedTip == None
    ensures r.selectedPeople == (if s.split == Split then None else s.selectedPeople)
    ensures r.customTip == s.customTip && r.customPeople == s.customPeople
    ensures r.split == s.split && r.bill == s.bill && r.result == s.result
  {
    var s1 := ClearTipSelection(s);
    if s1.split == Split then ClearPeopleSelection(s1) else s1
  }

  /** on_custom_people_focus: forgets the preset head count only. */
  function OnCustomPeopleFocus(s: Selections): (r: Selections)
    ensures r.selectedPeople == None
    ensures r.(selectedPeople := s.selectedPeople) == s
  {
    ClearPeopleSelection(s)
  }

  /** The suppress flag is what keeps set_tip's choice: the same write with
      the trace left live would erase the tip just selected. */
  lemma UnsuppressedClearWouldUndoSetTip(s: Selections, tipPercentage: int)
    ensures SetTip(s, tipPercentage).selectedTip == Some(tipPercentage)
    ensures WriteCustomTip(s.(selectedTip := Some(tipPercentage)), "", false).selectedTip == None
  {
  }

  /** Likewise for set_people's choice of head count. */
  lemma UnsuppressedClearWouldUndoSetPeople(s: Selections, people: int)
    ensures SetPeople(s, people).selectedPeople == Some(people)
    ensures WriteCustomPeople(s.(selectedPeople := Some(people)), "", false).selectedPeople == None
  {
  }
}

=== FILE: results.dfy ===
/** Optional values and success-or-error results, usable with `:-`.
    A Python `None`-or-value attribute becomes an `Option`; a call that
    either returns or raises `ValueError(message)` becomes a `Result`. */
module Results {

  datatype Option<+T> = None | Some(value: T)

  datatype Result<+T, +E> = Ok(value: T) | Err(error: E) {

    /** True if this is an error, which `:-` propagates. */
    predicate IsFailure() {
      Err?
    }

    /** Re-types an error so that it can be returned from a caller. */
    function PropagateFailure<U>(): Result<U, E>
      requires Err?
    {
      Err(error)
    }

    /** The value of a success. */
    function Extract(): T
      requires Ok?
    {
      value
    }
  }
}

=== FILE: session.dfy ===
/** A run of the app as a sequence of user events, each handled by one
    transition of GuiState, and what holds in every state a run reaches. */
module Session {
  import opened Results
  import opened GuiState
  import opened GuiCalculate

  /** The user actions the app is wired to. */
  datatype Event =
    | EditBill(text: string)              // typing in the bill entry (no trace)
    | ClickTip(percentage: int)           // a tip button: set_tip
    | FocusCustomTip                      // <FocusIn> on the custom tip entry
    | TypeCustomTip(text: string)         // editing the custom tip entry
    | ClickSplit(splitYes: bool)          // Yes/No: set_split_choice
    | ClickPeople(people: int)            // a people button: set_people
    | FocusCustomPeople                   // <FocusIn> on the custom people entry
    | TypeCustomPeople(text: string)      // editing the custom people entry
    | PressCalculate                      // the Calculate button

  /** Whether the widget an event comes from exists and is shown: buttons
      carry only their preset values, and the people widgets are packed only
      while the answer to "Split Bill?" is Yes. */
  predicate Enabled(s: Selections, e: Event) {
    match e
    case ClickTip(t) => t in TipPresets
    case ClickPeople(p) => s.split == Split && p in PeoplePresets
    case FocusCustomPeople => s.split == Split
    case TypeCustomPeople(_) => s.split == Split
    case _ => true
  }

  /** The handler each event runs; typing is an unsuppressed write. Only the
      tip widgets change the tip, only Yes/No changes the split answer, only
      the bill entry changes the bill and only Calculate changes the label. */
  function Step(conv: Conversions, s: Selections, e: Event): (r: Selections)
    ensures e.ClickTip? ==> r.selectedTip == Some(e.percentage) && r.customTip == ""
    ensures e.TypeCustomTip? ==> r.customTip == e.text && r.selectedTip == None
    ensures e.FocusCustomTip? ==> r.selectedTip == None && r.customTip == s.customTip
    ensures e.ClickSplit?
         ==> r.split == (if e.splitYes then Split else NotSplit)
             && r.selectedPeople == None && r.customPeople == ""
    ensures e.ClickPeople? ==> r.selectedPeople == Some(e.people) && r.customPeople == ""
    ensures e.TypeCustomPeople? ==> r.customPeople == e.text && r.selectedPeople == None
    ensures e.FocusCustomPeople? ==> r.selectedPeople == None && r.customPeople == s.customPeople
    ensures e.TypeCustomTip?
         ==> if s.split == Split then r.selectedPeople == None && r.customPeople == ""
             else SamePeople(r, s)
    ensures e.FocusCustomTip?
         ==> r.selectedPeople == (if s.split == Split then None else s.selectedPeople)
             && r.customPeople == s.customPeople
    ensures TipNeutral(e) ==> SameTip(r, s)
    ensures !e.ClickSplit? ==> r.split == s.split
    ensures e.EditBill? || e.ClickTip? || e.PressCalculate? ==> SamePeople(r, s)
    ensures e.EditBill? ==> r.bill == e.text && r.(bill := s.bill) == s
    ensures !e.EditBill? ==> r.bill == s.bill
    ensures e.PressCalculate? ==> r.result == Calculate(s, conv) && r.(result := s.result) == s
    ensures !e.PressCalculate? ==> r.result == s.result
  {
    match e
    case EditBill(text) => s.(bill := text)
    case ClickTip(t) => SetTip(s, t)
    case FocusCustomTip => OnCustomTipFocus(s)
    case TypeCustomTip(text) => WriteCustomTip(s, text, false)
    case ClickSplit(v) => SetSplitChoice(s, v)
    case ClickPeople(p) => SetPeople(s, p)
    case FocusCustomPeople => OnCustomPeopleFocus(s)
    case TypeCustomPeople(text) => WriteCustomPeople(s, text, false)
    case PressCalculate => s.(result := Calculate(s, conv))
  }

  /** The state after a sequence of events; an event from a widget that is
      not shown reaches no handler. */
  function Run(conv: Conversions, s: Selections, events: seq<Event>): Selections
    decreases |events|
  {
    if events == [] then s
    else
      var next := if Enabled(s, events[0]) then Step(conv, s, events[0]) else s;
      Run(conv, next, events[1..])
  }

  /** What the handlers keep true together: a preset and non-empty custom
      text are never held at once, presets are button values, and no head
      count survives unless the bill is being split. */
  predicate Inv(s: Selections) {
    && (s.selectedTip.Some? ==> s.customTip == "" && s.selectedTip.value in TipPresets)
    && (s.selectedPeople.Some? ==> s.customPeople == "" && s.selectedPeople.value in PeoplePresets)
    && (s.split != Split ==> s.selectedPeople == None && s.customPeople == "")
  }

  /** Events that leave both tip fields alone. */
  predicate TipNeutral(e: Event) {
    !e.ClickTip? && !e.FocusCustomTip? && !e.TypeCustomTip?
  }

  lemma InitialSatisfiesInv()
    ensures Inv(Initial)
  {
  }

  /** Every handler keeps the invariant. */
  lemma StepPreservesInv(conv: Conversions, s: Selections, e: Event)
    requires Inv(s) && Enabled(s, e)
    ensures Inv(Step(conv, s, e))
  {
  }

  lemma {:induction false} RunPreservesInv(conv: Conversions, s: Selections, events: seq<Event>)
    requires Inv(s)
    ensures Inv(Run(conv, s, events))
    decreases |events|
  {
    if events != [] {
      var next := if Enabled(s, events[0]) then Step(conv, s, events[0]) else s;
      if Enabled(s, events[0]) {
        StepPreservesInv(conv, s, events[0]);
      }
      RunPreservesInv(conv, next, events[1..]);
    }
  }

  /** In every state the app can reach, a preset tip resolves to itself
      (no custom text can be shadowing it) and a preset head count is one
      of the buttons, so it always passes the positive-count guard. */
  lemma ReachablePresetsResolve(conv: Conversions, events: seq<Event>)
    ensures var s := Run(conv, Initial, events);
      && (s.selectedTip.Some? ==> GetTipPercentage(s, conv) == Ok(s.selectedTip.value as real))
      && (s.selectedPeople.Some? ==> s.split == Split && GetNumberOfPeople(s, conv).Ok?
                                     && GetNumberOfPeople(s, conv).value > 0)
  {
    InitialSatisfiesInv();
    RunPreservesInv(conv, Initial, events);
  }

  /** In every reachable state that is not split, the people fields are empty. */
  lemma ReachableNotSplitHasNoPeople(conv: Conversions, events: seq<Event>)
    ensures var s := Run(conv, Initial, events);
      s.split != Split ==> s.selectedPeople == None && s.customPeople == ""
  {
    InitialSatisfiesInv();
    RunPreservesInv(conv, Initial, events);
  }

  /** Events that do not touch the tip widgets leave the resolved tip as it was. */
  lemma {:induction false} TipNeutralRunKeepsTip(conv: Conversions, s: Selections, events: seq<Event>)
    requires forall i | 0 <= i < |events| :: TipNeutral(events[i])
    ensures SameTip(Run(conv, s, events), s)
    ensures GetTipPercentage(Run(conv, s, events), conv) == GetTipPercentage(s, conv)
    decreases |events|
  {
    if events != [] {
      var next := if Enabled(s, events[0]) then Step(conv, s, events[0]) else s;
      assert TipNeutral(events[0]);
      assert SameTip(next, s);
      TipNeutralRunKeepsTip(conv, next, events[1..]);
    }
  }

  /** Once Yes or No has been pressed the split question stays answered. */
  lemma {:induction false} SplitStaysDecided(conv: Conversions, s: Selections, events: seq<Event>)
    requires s.split != Undecided
    ensures Run(conv, s, events).split != Undecided
    decreases |events|
  {
    if events != [] {
      var next := if Enabled(s, events[0]) then Step(conv, s, events[0]) else s;
      assert next.split != Undecided;
      SplitStaysDecided(conv, next, events[1..]);
    }
  }

  /** The last tip action decides the tip: a preset pressed after custom
      text clears that text, so the order of entry matters in the app even
      though resolution itself prefers custom text. */
  lemma LastTipActionWins(conv: Conversions, s: Selections, t: int, text: string, events: seq<Event>)
    requires t in TipPresets && text != ""
    requires forall i | 0 <= i < |events| :: TipNeutral(events[i])
    ensures GetTipPercentage(Run(conv, s, [TypeCustomTip(text), ClickTip(t)] + events), conv) == Ok(t as real)
    ensures GetTipPercentage(Run(conv, s, [ClickTip(t), TypeCustomTip(text)] + events), conv) == conv.toFloat(text)
  {
    var a := [TypeCustomTip(text), ClickTip(t)] + events;
    assert a[1..][1..] == events;
    TipNeutralRunKeepsTip(conv, SetTip(WriteCustomTip(s, text, false), t), events);
    var b := [ClickTip(t), TypeCustomTip(text)] + events;
    assert b[1..][1..] == events;
    TipNeutralRunKeepsTip(conv, WriteCustomTip(SetTip(s, t), text, false), events);
  }

  /** Clicking into the custom tip entry after pressing a preset, without
      typing, leaves no tip at all. */
  lemma FocusAfterPresetLosesTip(conv: Conversions, s: Selections, t: int)
    requires t in TipPresets
    ensures GetTipPercentage(Run(conv, s, [ClickTip(t)]), conv) == Ok(t as real)
    ensures GetTipPercentage(Run(conv, s, [ClickTip(t), FocusCustomTip]), conv) == Err(TipMissing)
  {
    var chosen := SetTip(s, t);
    assert Run(conv, s, [ClickTip(t)]) == chosen;
    assert [ClickTip(t), FocusCustomTip][1..] == [FocusCustomTip];
    assert Run(conv, s, [ClickTip(t), FocusCustomTip]) == Run(conv, chosen, [FocusCustomTip]);
    assert Run(conv, chosen, [FocusCustomTip]) == OnCustomTipFocus(chosen);
  }
}
